=== FILE: README.md ===
# VR clipping editor — a Dafny model

This project models the core of a WebXR viewer. The user loads a mesh and places
flat "plane" objects beside it. The clip toggle then turns those objects into clipping
half-spaces that cut the mesh. Everything lives in `src/index.js`. The model covers:

- **The clip registry** (`clippingObj`), built in these steps:
  - collect the children whose name starts with `plane`;
  - turn each into a plane through the object's position, with its rotated +Z axis as the normal;
  - take the barycenter of the centers the center query returns;
  - negate every plane that has the barycenter on its negative side.
- **The per-object toggle.** A clippable child that has no planes receives the registry array itself. Any other clippable child has its planes cleared.
- **The throw without a mesh.** With no mesh loaded, the center query throws part-way through the toggle.
- **`negatedClipping`.** It negates the registry planes in place and flips every child's intersection mode.
- **`hidePlanes`.** It flips the visibility of the plane objects.
- **The stencil-cap bookkeeping:**
  - `createPlaneStencilGroup`: the two-pass back/front mask;
  - `createPlaneColored`: the cap, clipped by every other plane (compared by identity);
  - `addColorToClippedMesh`: one stencil group and one cap for every clippable mesh and plane, numbered by a running render-order counter.
- **The controller.**
  - `onSelectStart`: pick the nearest object, or the whole group in join mode.
  - `onSelectEnd`: release it.
  - `cleanIntersected`: the per-frame reset of the hover highlight.

State and modules:

- The viewer's module-level variables and the group's children form one immutable `Editor` value. Each action is a function of an `Editor`, with three exceptions in shape:
  - `Clipping.ClippingObj` also takes the mesh center and returns a `Step`, the new `Editor` plus whether the call threw;
  - `Selection.OnSelectStart` also takes the hit list;
  - `Selection.OnSelectEnd` also takes the released object's new pose (position and rotated +Z axis in the group's frame), which `group.attach` computes from where the controller moved it.
- `cleanIntersected` is a method with its loop.
- A material's `clippingPlanes` is `Unset`, an array of its own (`Own`), or the registry array itself (`Registry`). Holders of `Registry` therefore observe later in-place negations.
- When `clippingObj` rebinds `planes` to a fresh array, earlier holders keep the old array. The model makes that array their own.
- Module `Geometry` gives `Vector3`/`Plane` arithmetic over the reals.
- `Scene` holds the data model. `Clipping` and `Capping` model the operations.
- `ClippingProperties`, `CappingProperties` and `SelectionProperties` relate several calls.

Behaviour followed from the code rather than from its comments:

- **The barycenter is the loaded mesh's center.** The comments "Gets the centers of the planes" and "Calculates the barycenter of the planes" (src/index.js:385, 400) speak of the planes' centers. However, `getCenter` (src/index.js:559-567) ignores its argument and reads the loaded mesh, so every center is the mesh's bounding-box center. `Clipping.ClippingObj` therefore takes that one center. `Clipping.BuildRegistry` and `ClippingProperties.OrientByMeanSide` state the orientation rule for arbitrary centers.
- **Only objects named exactly `plane` are exempt from clipping.** The registry, though, takes every child whose name *starts* with `plane` (src/index.js:376 and 424).
- **Releasing moves the object.** Picking re-parents the object to the controller. Releasing puts it back at the end of the group's children, so the order of the children changes.

## Model

| member | source | states |
|---|---|---|
| Geometry.NegateFlipsSide | src/index.js:414-418 | negating a plane flips the sign of its signed distance to every point |
| Geometry.NegateInvolution | src/index.js:438-439 | negating a plane twice gives the plane back |
| Geometry.CoplanarPointOnPlane | src/index.js:389-392 | the plane built from a normal and a point measures distance from that point along the normal, so the point lies on it |
| Geometry.BarycenterOfCopies | src/index.js:559-567 | when every center is the same point, as the center query makes it, the barycenter is that point |
| Geometry.Barycenter | src/index.js:400-404 | the barycenter is the mean of the centers: scaled by their count it is their sum |
| Geometry.BarycenterDistanceIsMean | src/index.js:400-411 | the barycenter's signed distance to a plane is the mean of the centers' signed distances |
| Geometry.BarycenterSideIsMeanSide | src/index.js:400-415 | the barycenter is on a plane's negative side exactly when the sum of the centers' distances is negative |
| Clipping.PlaneObjects | src/index.js:376 | the plane objects are exactly the children whose name starts with "plane" |
| Clipping.RawPlanes | src/index.js:380-398 | one plane per plane object, in order, whose normal is the object's rotated +Z axis |
| Clipping.Orient | src/index.js:406-418 | afterwards every plane has the point on its kept side; planes that already did are unchanged and the others are exactly negated |
| Clipping.BuildRegistry | src/index.js:374-418 | one plane per plane object with normal plus or minus the object's axis, each keeping the barycenter when there are centers |
| Clipping.Toggle | src/index.js:423-432 | a child not named "plane" that has no planes gets the registry itself with intersection off; one that has planes is left with none, keeping its intersection mode; a child named "plane" is untouched |
| Clipping.CenterQueries | src/index.js:559-567 | the center query answers, for every plane object, the loaded mesh's center, whatever object it is asked about |
| Clipping.Snapshot | src/index.js:374 | rebinding the registry leaves an earlier holder clipped by the same planes, now its own |
| Clipping.ClippingObj | src/index.js:371-433 | flips the toggle flag; throws exactly when a plane object exists and no mesh is loaded, with the registry emptied and no child touched; otherwise gives the registry one plane per plane object and assigns it to every clippable child that had no planes (intersection off) or clears the others, and leaves "plane" children and the controller's objects clipped as before |
| Clipping.NegatedClipping | src/index.js:438-444 | every registry plane keeps the opposite half-space and every child's intersection flag flips; nothing else changes |
| Clipping.HidePlanes | src/index.js:240-244 | a child's visibility changes exactly when its name starts with "plane"; nothing else changes |
| ClippingProperties.RegistryThroughPlaneObjects | src/index.js:380-418 | every registry plane, negated or not, passes through the position of its plane object |
| ClippingProperties.OrientIdempotent | src/index.js:409-418 | orienting an oriented registry about the same point changes nothing |
| ClippingProperties.OrientByMeanSide | src/index.js:400-418 | a plane is negated exactly when the centers' signed distances sum to a negative value |
| ClippingProperties.PlaneObjectsAppend | src/index.js:376 | the plane-object filter keeps child order: it distributes over concatenation |
| ClippingProperties.ClippingObjKeepsShapes | src/index.js:423-432 | the toggle changes no child's identity, name, position, axis, geometry or color |
| ClippingProperties.ClippingObjKeepsPlaneObjects | src/index.js:376-398 | after the toggle the same plane objects yield the same raw planes |
| ClippingProperties.RegistryStable | src/index.js:371-418 | toggling twice around the same mesh builds the identical registry |
| ClippingProperties.RegistryKeepsMeshCenter | src/index.js:384-418 | with a mesh loaded, every registry plane keeps the mesh's center, and a plane is negated exactly when the center is strictly on its negative side |
| ClippingProperties.ToggleTwiceClears | src/index.js:423-432 | toggling on then off restores the flag and leaves every clippable child that had no planes with none |
| ClippingProperties.SinglePlaneScenario | src/index.js:371-433 | one plane at the origin facing +Z and one mesh: the registry is that plane, negated exactly when the mesh center is below it, and the mesh is clipped by the registry with intersection off |
| ClippingProperties.NoPlanesScenario | src/index.js:371-433 | with no plane objects nothing throws, the registry is empty and every clear clippable child holds it |
| ClippingProperties.NoMeshScenario | src/index.js:371-387 | without a mesh, a plane object makes the toggle throw with the registry emptied and every child clipped as before |
| ClippingProperties.NegatedClippingInvolution | src/index.js:438-444 | negating twice restores every plane and every intersection flag |
| ClippingProperties.NegationReachesSharers | src/index.js:426-444 | the children sharing the registry see every plane negated; the others keep their planes |
| ClippingProperties.HidePlanesInvolution | src/index.js:240-244 | hiding twice restores every child |
| ClippingProperties.ActionsKeepValid | src/index.js:371-444 | the toggle, negation and hiding keep every object in one place only |
| Capping.CreatePlaneStencilGroup | src/index.js:454-495 | a group named after the mesh: back faces counting the stencil up, then front faces counting it down, both clipped by the one plane, at the given order, position and geometry |
| Capping.CapClipping | src/index.js:539 | the cap's plane list is the registry filtered by identity, never longer than the registry |
| Capping.CapClippingMembers | src/index.js:539 | the cap's planes are exactly the planes other than the capped one, by identity |
| Capping.CreatePlaneColored | src/index.js:534-557 | the cap is clipped by every other plane and never by its own; it draws the mesh's color at the given order and intersection mode, where the stencil is not zero, replacing it |
| Capping.ClippableObjects | src/index.js:513 | the meshes that get caps are exactly the children not named "plane" |
| Capping.PairFor | src/index.js:515-521 | the pair for one mesh and plane at counter k: a two-pass mask over that plane at order k named after the mesh, and a cap at k + 0.1 named after the mesh, with its color, clipped by exactly the other planes |
| Capping.Row | src/index.js:514-527 | the inner loop yields one pair per plane |
| Capping.Pairs | src/index.js:512-531 | the outer loop yields one pair per clippable mesh and plane |
| Capping.AddColorToClippedMesh | src/index.js:505-532 | one stencil group and one cap per clippable mesh and plane; every clippable mesh is then clipped by the planes and every "plane" child is left as it was |
| CappingProperties.ClippableObjectsAppend | src/index.js:512-513 | the meshes are taken in child order: the filter distributes over concatenation |
| CappingProperties.CapClippingRemovesOne | src/index.js:539 | a plane present once is cut out at its place, with the others kept in order |
| CappingProperties.PairsAt | src/index.js:510-529 | the pair at position k of the output belongs to the mesh and plane at k in row-major order and is numbered k from the start |
| CappingProperties.RenderOrderNumbering | src/index.js:510-527 | the j-th mesh's pair for the i-th plane is drawn k-th, k = j * planes + i: the mask at order k, the cap at k + 0.1, named after the mesh and clipped by the other planes |
| Selection.OnSelectStart | src/index.js:270-297 | with clipping on or nothing hit, nothing changes; in join mode every child is highlighted and the group is selected; otherwise the nearest object leaves the group for the controller, highlighted, selected and remembered |
| Selection.Released | src/index.js:305-306 | the released object is the held one with its highlight off and its pose replaced by where the controller left it; nothing else changes |
| Selection.OnSelectEnd | src/index.js:299-316 | the selection is cleared in every case; the very held object returns, unhighlighted and placed at the given pose, to the end of the group and leaves the controller; a held group has every child unhighlighted |
| Selection.ClearedRed | src/index.js:348-353 | exactly the highlighted objects lose the red component of their emissive color; nothing else changes |
| Selection.Cleaned | src/index.js:348-353 | after the reset nothing is highlighted, every object that was highlighted has its red component cleared and changes in nothing else, every other object is unchanged, and every object keeps its place in the group or the controller |
| Selection.CleanIntersected | src/index.js:348-353 | popping the highlighted objects one at a time gives the all-at-once reset |
| SelectionProperties.SelectStartKeepsValid | src/index.js:270-297 | picking keeps every object in one place only, and the selected object is held by the controller |
| SelectionProperties.SelectEndKeepsValid | src/index.js:299-316 | releasing keeps every object in one place only |
| SelectionProperties.PickReleaseRoundTrip | src/index.js:270-316 | picking then releasing moves the object, unhighlighted and at the pose where the controller left it, to the end of the group; the controller holds what it held and the object is remembered; if the controller did not move it, only its highlight differs |
| SelectionProperties.PickReleaseGroupRoundTrip | src/index.js:279-313 | picking then releasing the joined group leaves every child in place, unhighlighted |
| SelectionProperties.CleanedIdempotent | src/index.js:348-353 | a second reset in the same frame changes nothing |

## Left out

- Rendering is not modelled: the GPU stencil buffer, depth and color writes, `clearStencil` after a cap is drawn, and the lighting materials. Only the values the code assigns are modelled.
- Cap placement is not modelled: `coplanarPoint` and `lookAt` (src/index.js:524-525) only set the cap's transform.
- Raycasting is not modelled: `getIntersections` and `intersectObjects` (src/index.js:318-346) are library queries. Their result enters `Selection.OnSelectStart` as the hit list, nearest first. The hover highlight they set enters `Selection.CleanIntersected` as the list of highlighted identities.
- The transform arithmetic of `attach` (src/index.js:290, 306) is not modelled. The pose a released object gets in the group enters `Selection.OnSelectEnd` as a parameter. While an object is held, its pose in the controller's frame is not tracked, because no modelled action reads it. Quaternion rotation enters as each object's rotated +Z axis (`facing`), and the bounding-box center enters as the mesh center.
- `getCenter` internals are not modelled (src/index.js:559-567). The center is a parameter, `None` when no mesh is loaded.
- File loading, GUI wiring, orbit and transform controls, the scale slider, window resizing and the animation loop are left out (src/index.js:45-231, 263-268, 355-369). They are I/O and event plumbing.
- `joinMeshFn` and `createPlane` (src/index.js:233-235, 249-261) are not modelled separately. Each only flips a flag or adds a child, and both of those are inputs here.
- Floating point is modelled as reals. The NaN barycenter with no plane objects is never computed, because then nothing is oriented.
- Capping.AddColorToClippedMesh: gives each clippable mesh a copy of the planes, where the source assigns the very array. That alias is never observed, since the function's only caller is commented out.
- Capping.CreatePlaneStencilGroup: models the three stencil operations of each pass as one value. The source sets fail, depth-fail and pass to the same operation.
- The 8-bit wrap of the stencil counter is not modelled. Only the increment and decrement operations are recorded.

=== FILE: capping.dfy ===
/**
 Bookkeeping of the stencil-cap builder, as data: which meshes and caps are
 made for each (mesh, plane) pair, which planes clip each of them, what
 they are named and in which order they are drawn. What the stencil buffer
 then holds on the GPU is not modelled.
 */
module Capping {
  import opened Geometry
  import opened Scene

  /** A `Plane` object; the cap filter compares identities, so a plane carries one. */
  datatype PlaneRef = PlaneRef(id: nat, plane: Plane)

  datatype Side = FrontSide | BackSide | DoubleSide

  datatype StencilFunc = AlwaysStencil | NotEqualStencil

  /** The one operation a material applies on stencil fail, depth fail and depth pass alike. */
  datatype StencilOp = IncrementWrap | DecrementWrap | ReplaceStencil

  /** One pass of a stencil group: it writes no color and no depth, only the stencil. */
  datatype MaskMesh = MaskMesh(
    name: string,
    side: Side,
    func: StencilFunc,
    op: StencilOp,
    clipping: seq<PlaneRef>,
    renderOrder: real,
    position: Vec3,
    geometry: nat)

  datatype StencilGroup = StencilGroup(name: string, children: seq<MaskMesh>)

  /** A flat quad of side `size` filling the cut face with the mesh's color. */
  datatype Cap = Cap(
    name: string,
    color: nat,
    clipping: seq<PlaneRef>,
    clipIntersection: bool,
    side: Side,
    func: StencilFunc,
    stencilRef: int,
    op: StencilOp,
    size: real,
    renderOrder: real)

  /** The drawn pair for one (mesh, plane): the stencil group goes into the container, the cap into the scene. */
  datatype CapPair = CapPair(stencil: StencilGroup, cap: Cap)

  /** What `addColorToClippedMesh` leaves behind. */
  datatype Capped = Capped(
    containerName: string,
    stencils: seq<StencilGroup>,
    caps: seq<Cap>,
    group: seq<Obj>)

  predicate IsMaskPass(m: MaskMesh, plane: PlaneRef, renderOrder: real, position: Vec3, geometry: nat) {
    && m.func == AlwaysStencil
    && m.clipping == [plane]
    && m.renderOrder == renderOrder
    && m.position == position
    && m.geometry == geometry
  }

  /**
   The two-pass mask: the back faces clipped by `plane` count the stencil up,
   then the front faces clipped by the same plane count it down, both drawn
   at the same render order over the same geometry and position.
   */
  predicate TwoPassMask(g: StencilGroup, plane: PlaneRef, renderOrder: real, position: Vec3, geometry: nat) {
    && |g.children| == 2
    && g.children[0].name == "back" && g.children[0].side == BackSide && g.children[0].op == IncrementWrap
    && g.children[1].name == "front" && g.children[1].side == FrontSide && g.children[1].op == DecrementWrap
    && IsMaskPass(g.children[0], plane, renderOrder, position, geometry)
    && IsMaskPass(g.children[1], plane, renderOrder, position, geometry)
  }

  /** `createPlaneStencilGroup`. */
  function CreatePlaneStencilGroup(name: string, position: Vec3, geometry: nat, plane: PlaneRef, renderOrder: real): (g: StencilGroup)
    ensures TwoPassMask(g, plane, renderOrder, position, geometry)
    ensures g.name == "planeStencilGroup" + name
  {
    var back := MaskMesh("back", BackSide, AlwaysStencil, IncrementWrap, [plane], renderOrder, position, geometry);
    var front := MaskMesh("front", FrontSide, AlwaysStencil, DecrementWrap, [plane], renderOrder, position, geometry);
    StencilGroup("planeStencilGroup" + name, [back, front])
  }

  /** `planes.filter((p) => p !== plane)`: every plane but the capped one, by identity, in order. */
  function CapClipping(planes: seq<PlaneRef>, plane: PlaneRef): (r: seq<PlaneRef>)
    ensures |r| <= |planes|
  {
    if |planes| == 0 then []
    else (if planes[0].id != plane.id then [planes[0]] else []) + CapClipping(planes[1..], plane)
  }

  /** The cap is clipped by exactly the planes that are not the capped one. */
  lemma {:induction false} CapClippingMembers(planes: seq<PlaneRef>, plane: PlaneRef)
    ensures forall p :: p in CapClipping(planes, plane) <==> p in planes && p.id != plane.id
  {
    if |planes| > 0 {
      CapClippingMembers(planes[1..], plane);
      assert planes == [planes[0]] + planes[1..];
    }
  }

  /** `createPlaneColored`; the caller names the cap. */
  function CreatePlaneColored(planes: seq<PlaneRef>, plane: PlaneRef, color: nat, renderOrder: real, negatedClick: bool): (c: Cap)
    ensures forall p :: p in c.clipping ==> p.id != plane.id
    ensures forall p :: p in planes && p.id != plane.id ==> p in c.clipping
    ensures c.renderOrder == renderOrder && c.color == color && c.clipIntersection == negatedClick
    ensures c.func == NotEqualStencil && c.stencilRef == 0 && c.op == ReplaceStencil && c.side == DoubleSide
  {
    CapClippingMembers(planes, plane);
    Cap("", color, CapClipping(planes, plane), negatedClick, DoubleSide, NotEqualStencil, 0, ReplaceStencil, 2000.0, renderOrder)
  }

  /** The children whose name is not exactly "plane", in child order. */
  function ClippableObjects(group: seq<Obj>): (r: seq<Obj>)
    ensures |r| <= |group|
    ensures forall o :: o in r <==> o in group && IsClippable(o)
  {
    if |group| == 0 then []
    else (if IsClippable(group[0]) then [group[0]] else []) + ClippableObjects(group[1..])
  }

  /** The pair drawn for mesh `m` and plane `p` when the counter reads `k`. */
  function PairFor(m: Obj, p: PlaneRef, planes: seq<PlaneRef>, negatedClick: bool, k: nat): (r: CapPair)
    ensures r.stencil.name == "planeStencilGroup" + m.name
    ensures TwoPassMask(r.stencil, p, k as real, m.position, m.geometry)
    ensures r.cap.name == "Clipping" + m.name && r.cap.color == m.color
    ensures r.cap.renderOrder == k as real + 0.1 && r.cap.clipIntersection == negatedClick
    ensures forall q :: q in r.cap.clipping <==> q in planes && q.id != p.id
  {
    CapClippingMembers(planes, p);
    CapPair(
      CreatePlaneStencilGroup(m.name, m.position, m.geometry, p, k as real),
      CreatePlaneColored(planes, p, m.color, k as real + 0.1, negatedClick).(name := "Clipping" + m.name))
  }

  /** The inner loop over the planes for one mesh, starting at counter `y`. */
  function Row(m: Obj, planesNegated: seq<PlaneRef>, planes: seq<PlaneRef>, negatedClick: bool, y: nat): (r: seq<CapPair>)
    ensures |r| == |planesNegated|
  {
    seq(|planesNegated|, i requires 0 <= i < |planesNegated| => PairFor(m, planesNegated[i], planes, negatedClick, y + i))
  }

  /** The outer loop over the meshes; the counter runs on across meshes. */
  function Pairs(ms: seq<Obj>, planesNegated: seq<PlaneRef>, planes: seq<PlaneRef>, negatedClick: bool, y: nat): (r: seq<CapPair>)
    ensures |r| == |ms| * |planesNegated|
  {
    if |ms| == 0 then []
    else
      var rest := Pairs(ms[1..], planesNegated, planes, negatedClick, y + |planesNegated|);
      assert |ms| * |planesNegated| == |planesNegated| + (|ms| - 1) * |planesNegated|;
      Row(ms[0], planesNegated, planes, negatedClick, y) + rest
  }

  function PlanesOf(refs: seq<PlaneRef>): (r: seq<Plane>)
    ensures |r| == |refs|
    ensures forall i :: 0 <= i < |refs| ==> r[i] == refs[i].plane
  {
    seq(|refs|, i requires 0 <= i < |refs| => refs[i].plane)
  }

  /**
   `addColorToClippedMesh`: a stencil group and a cap for every clippable
   mesh and every plane of `planesNegated`, then the mesh is clipped by
   `planesNegated`. Plane objects are skipped.
   */
  function AddColorToClippedMesh(group: seq<Obj>, planesNegated: seq<PlaneRef>, planes: seq<PlaneRef>, negatedClick: bool): (r: Capped)
    ensures r.containerName == "ClippingGroup"
    ensures |r.stencils| == |r.caps| == |ClippableObjects(group)| * |planesNegated|
    ensures |r.group| == |group|
    ensures forall k :: 0 <= k < |group| && IsClippable(group[k]) ==>
      r.group[k] == group[k].(clipping := Own(PlanesOf(planesNegated)))
    ensures forall k :: 0 <= k < |group| && !IsClippable(group[k]) ==> r.group[k] == group[k]
  {
    var pairs := Pairs(ClippableObjects(group), planesNegated, planes, negatedClick, 0);
    Capped(
      "ClippingGroup",
      seq(|pairs|, k requires 0 <= k < |pairs| => pairs[k].stencil),
      seq(|pairs|, k requires 0 <= k < |pairs| => pairs[k].cap),
      seq(|group|, k requires 0 <= k < |group| =>
        if IsClippable(group[k]) then group[k].(clipping := Own(PlanesOf(planesNegated))) else group[k]))
  }
}

=== FILE: capping_properties.dfy ===
/** Properties of the cap filter and of the render-order numbering. */
module CappingProperties {
  import opened Scene
  import opened Capping

  /** The meshes are capped in child order: the filter distributes over concatenation. */
  lemma {:induction false} ClippableObjectsAppend(a: seq<Obj>, b: seq<Obj>)
    ensures ClippableObjects(a + b) == ClippableObjects(a) + ClippableObjects(b)
  {
    if |a| == 0 {
      assert a + b == b;
    } else {
      assert (a + b)[0] == a[0];
      assert (a + b)[1..] == a[1..] + b;
      ClippableObjectsAppend(a[1..], b);
    }
  }

  /** A plane that is not among `planes` removes nothing. */
  lemma {:induction false} CapClippingAbsent(planes: seq<PlaneRef>, plane: PlaneRef)
    requires forall j :: 0 <= j < |planes| ==> planes[j].id != plane.id
    ensures CapClipping(planes, plane) == planes
  {
    if |planes| > 0 {
      CapClippingAbsent(planes[1..], plane);
      assert planes == [planes[0]] + planes[1..];
    }
  }

  /** A plane present once is cut out exactly at its place; the rest keep their order. */
  lemma {:induction false} CapClippingRemovesOne(planes: seq<PlaneRef>, plane: PlaneRef, k: nat)
    requires k < |planes| && planes[k].id == plane.id
    requires forall j :: 0 <= j < |planes| && j != k ==> planes[j].id != plane.id
    ensures CapClipping(planes, plane) == planes[..k] + planes[k + 1..]
    ensures |CapClipping(planes, plane)| == |planes| - 1
  {
    var rest := CapClipping(planes[1..], plane);
    assert CapClipping(planes, plane) == (if k == 0 then [] else [planes[0]]) + rest;
    if k == 0 {
      CapClippingAbsent(planes[1..], plane);
      assert planes[..0] + planes[1..] == planes[1..];
    } else {
      CapClippingRemovesOne(planes[1..], plane, k - 1);
      assert rest == planes[1..k] + planes[k + 1..] by {
        assert planes[1..][..k - 1] == planes[1..k];
        assert planes[1..][k..] == planes[k + 1..];
      }
      assert [planes[0]] + planes[1..k] == planes[..k];
    }
  }

  lemma RowMajorStep(j: nat, n: nat, i: nat, k: nat)
    requires j > 0 && k == j * n + i
    ensures k >= n && k - n == (j - 1) * n + i
  {
  }

  /** The k-th drawn pair, counting mesh by mesh and plane by plane, is numbered from `y`. */
  lemma {:induction false} PairsAt(ms: seq<Obj>, ps: seq<PlaneRef>, planes: seq<PlaneRef>, negatedClick: bool, y: nat, j: nat, i: nat, k: nat)
    requires j < |ms| && i < |ps| && k == j * |ps| + i
    ensures k < |Pairs(ms, ps, planes, negatedClick, y)|
    ensures Pairs(ms, ps, planes, negatedClick, y)[k] == PairFor(ms[j], ps[i], planes, negatedClick, y + k)
  {
    var n := |ps|;
    var row := Row(ms[0], ps, planes, negatedClick, y);
    var rest := Pairs(ms[1..], ps, planes, negatedClick, y + n);
    assert Pairs(ms, ps, planes, negatedClick, y) == row + rest;
    if j == 0 {
      assert (row + rest)[k] == row[i];
    } else {
      RowMajorStep(j, n, i, k);
      PairsAt(ms[1..], ps, planes, negatedClick, y + n, j - 1, i, k - n);
      assert ms[1..][j - 1] == ms[j];
      assert (row + rest)[k] == rest[k - n];
    }
  }

  /**
   Render-order numbering: the pair for the j-th clippable mesh and the i-th
   plane is the k-th drawn, k = j * |planes| + i; its stencil group is a
   two-pass mask over that plane at order k, named after the mesh, and its
   cap is drawn at order k + 0.1, clipped by every other plane.
   */
  lemma RenderOrderNumbering(group: seq<Obj>, ps: seq<PlaneRef>, planes: seq<PlaneRef>, negatedClick: bool, j: nat, i: nat)
    requires j < |ClippableObjects(group)| && i < |ps|
    ensures var r := AddColorToClippedMesh(group, ps, planes, negatedClick);
      var m := ClippableObjects(group)[j];
      var k := j * |ps| + i;
      && k < |r.stencils|
      && r.stencils[k].name == "planeStencilGroup" + m.name
      && TwoPassMask(r.stencils[k], ps[i], k as real, m.position, m.geometry)
      && r.caps[k].name == "Clipping" + m.name
      && r.caps[k].color == m.color
      && r.caps[k].renderOrder == k as real + 0.1
      && r.caps[k].clipping == CapClipping(planes, ps[i])
      && r.caps[k].clipIntersection == negatedClick
  {
    PairsAt(ClippableObjects(group), ps, planes, negatedClick, 0, j, i, j * |ps| + i);
  }
}

=== FILE: clipping.dfy ===
/**
 The clip toggle controller: `clippingObj` builds and orients the clip
 registry and assigns or clears it on every clippable object;
 `negatedClipping` flips every registry plane and every object's
 intersection mode; `hidePlanes` flips the visibility of the plane objects.
 */
module Clipping {
  import opened Geometry
  import opened Scene

  /** The children whose name starts with "plane", in child order. */
  function PlaneObjects(group: seq<Obj>): (r: seq<Obj>)
    ensures |r| <= |group|
    ensures forall o :: o in r <==> o in group && IsPlaneObject(o)
  {
    if |group| == 0 then []
    else (if IsPlaneObject(group[0]) then [group[0]] else []) + PlaneObjects(group[1..])
  }

  /** One plane per object: normal the object's rotated +Z, through the object's position. */
  function RawPlanes(objs: seq<Obj>): (r: seq<Plane>)
    ensures |r| == |objs|
    ensures forall i :: 0 <= i < |objs| ==> r[i].normal == objs[i].facing
  {
    seq(|objs|, i requires 0 <= i < |objs| => FromNormalAndCoplanarPoint(objs[i].facing, objs[i].position))
  }

  function OrientOne(p: Plane, b: Vec3): Plane {
    if DistanceToPoint(p, b) < 0.0 then Negate(p) else p
  }

  /** The sign-normalisation pass: each plane ends up keeping the barycenter's side. */
  function Orient(ps: seq<Plane>, b: Vec3): (r: seq<Plane>)
    ensures |r| == |ps|
    ensures forall i :: 0 <= i < |r| ==> DistanceToPoint(r[i], b) >= 0.0
    ensures forall i :: 0 <= i < |r| && DistanceToPoint(ps[i], b) >= 0.0 ==> r[i] == ps[i]
    ensures forall i :: 0 <= i < |r| && DistanceToPoint(ps[i], b) < 0.0 ==> r[i] == Negate(ps[i])
  {
    seq(|ps|, i requires 0 <= i < |ps| => OrientOne(ps[i], b))
  }

  /**
   The registry `clippingObj` builds from the group's plane objects, given
   one center per plane object. With no plane objects there is no
   barycenter (`clippingObj` divides 0 by 0) and nothing to orient.
   */
  function BuildRegistry(group: seq<Obj>, centers: seq<Vec3>): (r: seq<Plane>)
    requires |centers| == |PlaneObjects(group)|
    ensures |r| == |PlaneObjects(group)|
    ensures forall i :: 0 <= i < |r| ==>
      r[i].normal == PlaneObjects(group)[i].facing || r[i].normal == Scale(PlaneObjects(group)[i].facing, -1.0)
    ensures |centers| > 0 ==> forall i :: 0 <= i < |r| ==> DistanceToPoint(r[i], Barycenter(centers)) >= 0.0
  {
    var raw := RawPlanes(PlaneObjects(group));
    if |centers| == 0 then raw else Orient(raw, Barycenter(centers))
  }

  /**
   Rebinding `planes` to a fresh array leaves every holder of the old array
   with that array; nothing negates it any more, so it is the holder's own.
   */
  function Snapshot(o: Obj, registry: seq<Plane>): (r: Obj)
    ensures !r.clipping.Registry?
    ensures Effective(r.clipping, []) == Effective(o.clipping, registry)
    ensures IsClear(r.clipping, []) == IsClear(o.clipping, registry)
    ensures r == o.(clipping := r.clipping)
  {
    if o.clipping.Registry? then o.(clipping := Own(registry)) else o
  }

  /** The per-object toggle: assign the registry where nothing clips, clear it elsewhere. */
  function Toggle(o: Obj, registry: seq<Plane>): (r: Obj)
    ensures r == o.(clipping := r.clipping, clipIntersection := r.clipIntersection)
    ensures !IsClippable(o) ==> r == o
    ensures IsClippable(o) && IsClear(o.clipping, registry) ==>
      r.clipping.Registry? && Effective(r.clipping, registry) == registry && !r.clipIntersection
    ensures IsClippable(o) && !IsClear(o.clipping, registry) ==>
      (forall registry' :: Effective(r.clipping, registry') == []) && r.clipIntersection == o.clipIntersection
  {
    if !IsClippable(o) then o
    else if IsClear(o.clipping, registry) then o.(clipping := Registry, clipIntersection := false)
    else o.(clipping := Own([]))
  }

  /** What `clippingObj` promises of one child, before and after. */
  predicate Toggled(before: Obj, registry: seq<Plane>, after: Obj, registry': seq<Plane>) {
    && after == before.(clipping := after.clipping, clipIntersection := after.clipIntersection)
    && (!IsClippable(before) ==>
          Effective(after.clipping, registry') == Effective(before.clipping, registry)
          && after.clipIntersection == before.clipIntersection)
    && (IsClippable(before) && IsClear(before.clipping, registry) ==>
          after.clipping == Registry && !after.clipIntersection)
    && (IsClippable(before) && !IsClear(before.clipping, registry) ==>
          Effective(after.clipping, registry') == [] && after.clipIntersection == before.clipIntersection)
  }

  /** Detaching a child from the old registry and toggling it against the new one is the promised toggle. */
  lemma SnapshotThenToggle(o: Obj, registry: seq<Plane>, registry': seq<Plane>)
    ensures Toggled(o, registry, Toggle(Snapshot(o, registry), registry'), registry')
  {
  }

  lemma SnapshotThenToggleAll(g: seq<Obj>, registry: seq<Plane>, registry': seq<Plane>)
    ensures forall k :: 0 <= k < |g| ==> Toggled(g[k], registry, Toggle(Snapshot(g[k], registry), registry'), registry')
  {
    forall k | 0 <= k < |g|
      ensures Toggled(g[k], registry, Toggle(Snapshot(g[k], registry), registry'), registry')
    {
      SnapshotThenToggle(g[k], registry, registry');
    }
  }

  /** An object whose clipping the call leaves exactly as it was. */
  predicate Kept(before: Obj, registry: seq<Plane>, after: Obj, registry': seq<Plane>) {
    && after == before.(clipping := after.clipping)
    && Effective(after.clipping, registry') == Effective(before.clipping, registry)
  }

  /** The result of a GUI callback that may throw part-way, keeping the changes made so far. */
  datatype Step = Step(state: Editor, threw: bool)

  /**
   What the center query answers for each plane object once a mesh is loaded:
   it reads the loaded mesh, not its argument, so every plane object gets the
   mesh's world-space bounding-box center.
   */
  function CenterQueries(group: seq<Obj>, meshCenter: Vec3): (cs: seq<Vec3>)
    ensures |cs| == |PlaneObjects(group)|
    ensures forall i :: 0 <= i < |cs| ==> cs[i] == meshCenter
  {
    seq(|PlaneObjects(group)|, i requires 0 <= i < |PlaneObjects(group)| => meshCenter)
  }

  /** The centers collected before the barycenter is taken; none without a mesh. */
  function Centers(group: seq<Obj>, meshCenter: Option<Vec3>): (cs: seq<Vec3>)
    ensures meshCenter.Some? ==> |cs| == |PlaneObjects(group)|
    ensures meshCenter.None? ==> cs == []
  {
    if meshCenter.Some? then CenterQueries(group, meshCenter.value) else []
  }

  /**
   `clippingObj`. `meshCenter` is the world-space bounding-box center of the
   loaded mesh, `None` when no mesh has been loaded: then the first center
   query throws. The throw happens after the flag has flipped and `planes`
   has been rebound to an empty array, before any object is touched.
   */
  function ClippingObj(e: Editor, meshCenter: Option<Vec3>): (r: Step)
    ensures r.state.clippingOn == !e.clippingOn
    ensures r.threw <==> meshCenter.None? && |PlaneObjects(e.group)| > 0
    ensures r.state.(group := e.group, grabbed := e.grabbed, planes := e.planes, clippingOn := e.clippingOn) == e
    ensures |r.state.group| == |e.group| && |r.state.grabbed| == |e.grabbed|
    ensures forall k :: 0 <= k < |e.grabbed| ==> Kept(e.grabbed[k], e.planes, r.state.grabbed[k], r.state.planes)
    ensures r.threw ==> r.state.planes == []
    ensures r.threw ==> forall k :: 0 <= k < |e.group| ==> Kept(e.group[k], e.planes, r.state.group[k], r.state.planes)
    ensures !r.threw ==> |r.state.planes| == |PlaneObjects(e.group)|
    ensures !r.threw ==> forall k :: 0 <= k < |e.group| ==> Toggled(e.group[k], e.planes, r.state.group[k], r.state.planes)
  {
    var detached := e.(
      clippingOn := !e.clippingOn,
      planes := [],
      group := seq(|e.group|, k requires 0 <= k < |e.group| => Snapshot(e.group[k], e.planes)),
      grabbed := seq(|e.grabbed|, k requires 0 <= k < |e.grabbed| => Snapshot(e.grabbed[k], e.planes)));
    if meshCenter.None? && |PlaneObjects(e.group)| > 0 then
      Step(detached, true)
    else
      var registry := BuildRegistry(e.group, Centers(e.group, meshCenter));
      var g := detached.group;
      SnapshotThenToggleAll(e.group, e.planes, registry);
      Step(detached.(planes := registry, group := seq(|g|, k requires 0 <= k < |g| => Toggle(g[k], registry))), false)
  }

  /** `negatedClipping`: negate the registry in place and flip every child's intersection mode. */
  function NegatedClipping(e: Editor): (r: Editor)
    ensures |r.planes| == |e.planes|
    ensures forall i, x :: 0 <= i < |e.planes| ==> DistanceToPoint(r.planes[i], x) == -DistanceToPoint(e.planes[i], x)
    ensures |r.group| == |e.group|
    ensures forall k :: 0 <= k < |e.group| ==>
      r.group[k] == e.group[k].(clipIntersection := !e.group[k].clipIntersection)
    ensures r.(planes := e.planes, group := e.group) == e
  {
    e.(planes := seq(|e.planes|, i requires 0 <= i < |e.planes| => Negate(e.planes[i])),
       group := seq(|e.group|, k requires 0 <= k < |e.group| =>
         e.group[k].(clipIntersection := !e.group[k].clipIntersection)))
  }

  /** `hidePlanes`: flip `visible` on the plane objects only. */
  function HidePlanes(e: Editor): (r: Editor)
    ensures |r.group| == |e.group|
    ensures forall k :: 0 <= k < |e.group| ==> r.group[k] == e.group[k].(visible := r.group[k].visible)
    ensures forall k :: 0 <= k < |e.group| ==> (r.group[k].visible != e.group[k].visible <==> IsPlaneObject(e.group[k]))
    ensures r.(group := e.group) == e
  {
    e.(group := seq(|e.group|, k requires 0 <= k < |e.group| =>
      if IsPlaneObject(e.group[k]) then e.group[k].(visible := !e.group[k].visible) else e.group[k]))
  }
}

=== FILE: clipping_properties.dfy ===
/** Properties relating several calls of the clip toggle controller's actions. */
module ClippingProperties {
  import opened Geometry
  import opened Scene
  import opened Clipping

  /** Every registry plane passes through the position of the plane object it was built from. */
  lemma RegistryThroughPlaneObjects(group: seq<Obj>, centers: seq<Vec3>)
    requires |centers| == |PlaneObjects(group)|
    ensures forall i :: 0 <= i < |PlaneObjects(group)| ==>
      DistanceToPoint(BuildRegistry(group, centers)[i], PlaneObjects(group)[i].position) == 0.0
  {
    var objs := PlaneObjects(group);
    var raw := RawPlanes(objs);
    var r := BuildRegistry(group, centers);
    forall i | 0 <= i < |objs|
      ensures DistanceToPoint(r[i], objs[i].position) == 0.0
    {
      var q := objs[i].position;
      assert raw[i] == FromNormalAndCoplanarPoint(objs[i].facing, q);
      CoplanarPointOnPlane(objs[i].facing, q, q);
      if r[i] != raw[i] {
        NegateFlipsSide(raw[i], q);
      }
    }
  }

  /** Orienting an oriented registry again changes nothing. */
  lemma OrientIdempotent(ps: seq<Plane>, b: Vec3)
    ensures Orient(Orient(ps, b), b) == Orient(ps, b)
  {
    var once := Orient(ps, b);
    var twice := Orient(once, b);
    forall i | 0 <= i < |ps|
      ensures twice[i] == once[i]
    {
      assert DistanceToPoint(once[i], b) >= 0.0;
    }
  }

  /**
   A plane is negated exactly when the centers lie, in sum, on its negative
   side: the barycenter test is the mean signed distance test.
   */
  lemma OrientByMeanSide(ps: seq<Plane>, cs: seq<Vec3>)
    requires |cs| > 0
    ensures forall i :: 0 <= i < |ps| ==>
      Orient(ps, Barycenter(cs))[i] == (if SumDistances(ps[i], cs) < 0.0 then Negate(ps[i]) else ps[i])
  {
    forall i | 0 <= i < |ps|
      ensures Orient(ps, Barycenter(cs))[i] == (if SumDistances(ps[i], cs) < 0.0 then Negate(ps[i]) else ps[i])
    {
      BarycenterSideIsMeanSide(ps[i], cs);
    }
  }

  /** Filtering the plane objects keeps child order: it distributes over concatenation. */
  lemma {:induction false} PlaneObjectsAppend(a: seq<Obj>, b: seq<Obj>)
    ensures PlaneObjects(a + b) == PlaneObjects(a) + PlaneObjects(b)
  {
    if |a| == 0 {
      assert a + b == b;
    } else {
      assert (a + b)[0] == a[0];
      assert (a + b)[1..] == a[1..] + b;
      PlaneObjectsAppend(a[1..], b);
    }
  }

  /** Which children are plane objects depends only on their names. */
  lemma {:induction false} PlaneObjectsSameShapes(a: seq<Obj>, b: seq<Obj>)
    requires SameShapes(a, b)
    ensures SameShapes(PlaneObjects(a), PlaneObjects(b))
  {
    if |a| > 0 {
      assert SameShape(a[0], b[0]);
      assert SameShapes(a[1..], b[1..]) by {
        forall k | 0 <= k < |a| - 1
          ensures SameShape(a[1..][k], b[1..][k])
        {
          assert SameShape(a[k + 1], b[k + 1]);
        }
      }
      PlaneObjectsSameShapes(a[1..], b[1..]);
    }
  }

  lemma RawPlanesSameShapes(a: seq<Obj>, b: seq<Obj>)
    requires SameShapes(a, b)
    ensures RawPlanes(a) == RawPlanes(b)
  {
    forall i | 0 <= i < |a|
      ensures RawPlanes(a)[i] == RawPlanes(b)[i]
    {
      assert SameShape(a[i], b[i]);
    }
  }

  lemma ClippingObjKeepsShapes(e: Editor, centers: Option<Vec3>)
    ensures SameShapes(ClippingObj(e, centers).state.group, e.group)
    ensures SameShapes(ClippingObj(e, centers).state.grabbed, e.grabbed)
  {
    var r := ClippingObj(e, centers);
    forall k | 0 <= k < |e.group|
      ensures SameShape(r.state.group[k], e.group[k])
    {
      if r.threw {
        assert Kept(e.group[k], e.planes, r.state.group[k], r.state.planes);
      } else {
        assert Toggled(e.group[k], e.planes, r.state.group[k], r.state.planes);
      }
    }
    forall k | 0 <= k < |e.grabbed|
      ensures SameShape(r.state.grabbed[k], e.grabbed[k])
    {
      assert Kept(e.grabbed[k], e.planes, r.state.grabbed[k], r.state.planes);
    }
  }

  /** `clippingObj` never changes which plane objects there are, so the next call sees as many. */
  lemma ClippingObjKeepsPlaneObjects(e: Editor, centers: Option<Vec3>)
    ensures SameShapes(PlaneObjects(ClippingObj(e, centers).state.group), PlaneObjects(e.group))
    ensures RawPlanes(PlaneObjects(ClippingObj(e, centers).state.group)) == RawPlanes(PlaneObjects(e.group))
  {
    ClippingObjKeepsShapes(e, centers);
    PlaneObjectsSameShapes(ClippingObj(e, centers).state.group, e.group);
    RawPlanesSameShapes(PlaneObjects(ClippingObj(e, centers).state.group), PlaneObjects(e.group));
  }

  /** Rebuilding the registry around the same mesh yields the same planes. */
  lemma RegistryStable(e: Editor, c: Vec3)
    ensures ClippingObj(ClippingObj(e, Some(c)).state, Some(c)).state.planes == ClippingObj(e, Some(c)).state.planes
  {
    var e1 := ClippingObj(e, Some(c)).state;
    ClippingObjKeepsPlaneObjects(e, Some(c));
    assert Centers(e1.group, Some(c)) == Centers(e.group, Some(c));
  }

  /**
   With a mesh loaded, every registry plane keeps the mesh's center on its
   kept side: a plane is negated exactly when the center lies strictly on its
   negative side.
   */
  lemma RegistryKeepsMeshCenter(e: Editor, c: Vec3)
    ensures var r := ClippingObj(e, Some(c)).state;
      var raw := RawPlanes(PlaneObjects(e.group));
      && |r.planes| == |raw|
      && (forall i :: 0 <= i < |r.planes| ==> DistanceToPoint(r.planes[i], c) >= 0.0)
      && (forall i :: 0 <= i < |r.planes| ==> r.planes[i] == (if DistanceToPoint(raw[i], c) < 0.0 then Negate(raw[i]) else raw[i]))
  {
    var cs := Centers(e.group, Some(c));
    if |cs| > 0 {
      BarycenterOfCopies(cs, c);
    }
  }

  /**
   Toggling clipping on and off again leaves every clippable object that
   had no planes with no planes, and the flag where it was.
   */
  lemma ToggleTwiceClears(e: Editor, c1: Vec3, c2: Vec3)
    ensures ClippingObj(ClippingObj(e, Some(c1)).state, Some(c2)).state.clippingOn == e.clippingOn
    ensures forall k :: 0 <= k < |e.group| && IsClippable(e.group[k]) && IsClear(e.group[k].clipping, e.planes) ==>
      Effective(ClippingObj(ClippingObj(e, Some(c1)).state, Some(c2)).state.group[k].clipping,
                ClippingObj(ClippingObj(e, Some(c1)).state, Some(c2)).state.planes) == []
  {
    var e1 := ClippingObj(e, Some(c1)).state;
    var e2 := ClippingObj(e1, Some(c2)).state;
    forall k | 0 <= k < |e.group| && IsClippable(e.group[k]) && IsClear(e.group[k].clipping, e.planes)
      ensures Effective(e2.group[k].clipping, e2.planes) == []
    {
      assert Toggled(e.group[k], e.planes, e1.group[k], e1.planes);
      assert Toggled(e1.group[k], e1.planes, e2.group[k], e2.planes);
      if |e1.planes| == 0 {
        ClippingObjKeepsPlaneObjects(e, Some(c1));
        assert |e2.planes| == 0;
      }
    }
  }

  lemma SinglePlaneObject(plane: Obj, mesh: Obj)
    requires plane.name == "plane" && mesh.name == "objects"
    ensures PlaneObjects([plane, mesh]) == [plane]
  {
    assert mesh.name[0] == 'o';
    assert !IsPlaneObject(mesh);
    assert [plane, mesh][1..] == [mesh];
    assert [mesh][1..] == [];
  }

  lemma UpPlane(plane: Obj)
    requires plane.position == Origin && plane.facing == Vec3(0.0, 0.0, 1.0)
    ensures RawPlanes([plane]) == [Plane(Vec3(0.0, 0.0, 1.0), 0.0)]
  {
    var r := RawPlanes([plane]);
    assert r == [r[0]];
    assert r[0] == FromNormalAndCoplanarPoint(plane.facing, plane.position);
  }

  lemma OrientUp(center: Vec3)
    ensures Orient([Plane(Vec3(0.0, 0.0, 1.0), 0.0)], center) ==
      [if center.z < 0.0 then Plane(Vec3(0.0, 0.0, -1.0), 0.0) else Plane(Vec3(0.0, 0.0, 1.0), 0.0)]
  {
  }

  lemma SinglePlaneRegistry(group: seq<Obj>, plane: Obj, center: Vec3)
    requires PlaneObjects(group) == [plane]
    requires plane.position == Origin && plane.facing == Vec3(0.0, 0.0, 1.0)
    ensures BuildRegistry(group, [center]) ==
      [if center.z < 0.0 then Plane(Vec3(0.0, 0.0, -1.0), 0.0) else Plane(Vec3(0.0, 0.0, 1.0), 0.0)]
  {
    UpPlane(plane);
    BarycenterOfOne(center);
    OrientUp(center);
  }

  /** One plane object at the origin facing +Z and one clippable mesh: the mesh is clipped by that plane, turned towards the mesh. */
  lemma SinglePlaneScenario(e: Editor, plane: Obj, mesh: Obj, center: Vec3)
    requires e.group == [plane, mesh]
    requires plane.name == "plane" && plane.position == Origin && plane.facing == Vec3(0.0, 0.0, 1.0)
    requires mesh.name == "objects" && mesh.clipping == Unset
    ensures !ClippingObj(e, Some(center)).threw
    ensures ClippingObj(e, Some(center)).state.planes ==
      [if center.z < 0.0 then Plane(Vec3(0.0, 0.0, -1.0), 0.0) else Plane(Vec3(0.0, 0.0, 1.0), 0.0)]
    ensures ClippingObj(e, Some(center)).state.group[1].clipping == Registry
    ensures !ClippingObj(e, Some(center)).state.group[1].clipIntersection
  {
    SinglePlaneObject(plane, mesh);
    assert Centers(e.group, Some(center)) == [center];
    SinglePlaneRegistry(e.group, plane, center);
    var r := ClippingObj(e, Some(center));
    assert Toggled(e.group[1], e.planes, r.state.group[1], r.state.planes);
  }

  /** With no plane objects nothing can throw, the registry is empty and clear objects receive it. */
  lemma NoPlanesScenario(e: Editor, centers: Option<Vec3>)
    requires |PlaneObjects(e.group)| == 0
    ensures !ClippingObj(e, centers).threw
    ensures ClippingObj(e, centers).state.planes == []
    ensures forall k :: 0 <= k < |e.group| && IsClippable(e.group[k]) && IsClear(e.group[k].clipping, e.planes) ==>
      ClippingObj(e, centers).state.group[k].clipping == Registry
      && Effective(ClippingObj(e, centers).state.group[k].clipping, ClippingObj(e, centers).state.planes) == []
  {
    var r := ClippingObj(e, centers);
    forall k | 0 <= k < |e.group| && IsClippable(e.group[k]) && IsClear(e.group[k].clipping, e.planes)
      ensures r.state.group[k].clipping == Registry
    {
      assert Toggled(e.group[k], e.planes, r.state.group[k], r.state.planes);
    }
  }

  /** Without a loaded mesh, any plane object makes the toggle throw with the registry emptied and no object touched. */
  lemma NoMeshScenario(e: Editor)
    requires |PlaneObjects(e.group)| > 0
    ensures ClippingObj(e, None).threw
    ensures ClippingObj(e, None).state.planes == []
    ensures ClippingObj(e, None).state.clippingOn == !e.clippingOn
    ensures forall k :: 0 <= k < |e.group| ==>
      Effective(ClippingObj(e, None).state.group[k].clipping, []) == Effective(e.group[k].clipping, e.planes)
  {
    var r := ClippingObj(e, None);
    forall k | 0 <= k < |e.group|
      ensures Effective(r.state.group[k].clipping, []) == Effective(e.group[k].clipping, e.planes)
    {
      assert Kept(e.group[k], e.planes, r.state.group[k], r.state.planes);
    }
  }

  /** Negating twice restores every plane and every intersection flag. */
  lemma NegatedClippingInvolution(e: Editor)
    ensures NegatedClipping(NegatedClipping(e)) == e
  {
    var r := NegatedClipping(NegatedClipping(e));
    forall i | 0 <= i < |e.planes|
      ensures r.planes[i] == e.planes[i]
    {
      NegateInvolution(e.planes[i]);
    }
    assert r.planes == e.planes;
    assert r.group == e.group;
  }

  /**
   Negation reaches every object that shares the registry, and no other:
   an object holding its own array keeps its planes.
   */
  lemma NegationReachesSharers(e: Editor, k: nat)
    requires k < |e.group|
    ensures e.group[k].clipping.Registry? ==>
      var before := Effective(e.group[k].clipping, e.planes);
      var after := Effective(NegatedClipping(e).group[k].clipping, NegatedClipping(e).planes);
      |after| == |before| && forall i :: 0 <= i < |before| ==> after[i] == Negate(before[i])
    ensures !e.group[k].clipping.Registry? ==>
      Effective(NegatedClipping(e).group[k].clipping, NegatedClipping(e).planes) == Effective(e.group[k].clipping, e.planes)
  {
    var r := NegatedClipping(e);
    forall i | 0 <= i < |e.planes|
      ensures r.planes[i] == Negate(e.planes[i])
    {
      NegateInvolution(e.planes[i]);
      assert r.planes[i].normal == Scale(e.planes[i].normal, -1.0);
      assert r.planes[i].constant == DistanceToPoint(r.planes[i], Origin);
    }
  }

  /** Hiding the planes twice shows them again. */
  lemma HidePlanesInvolution(e: Editor)
    ensures HidePlanes(HidePlanes(e)) == e
  {
    var r := HidePlanes(HidePlanes(e));
    forall k | 0 <= k < |e.group|
      ensures r.group[k] == e.group[k]
    {
    }
    assert r.group == e.group;
  }

  lemma IdsOfSameShapes(a: seq<Obj>, b: seq<Obj>)
    requires SameShapes(a, b)
    ensures Ids(a) == Ids(b)
  {
    assert forall k :: 0 <= k < |a| ==> SameShape(a[k], b[k]);
  }

  /** The clip toggle controller's actions keep the representation invariant. */
  lemma ActionsKeepValid(e: Editor, centers: Option<Vec3>)
    requires Valid(e)
    ensures Valid(ClippingObj(e, centers).state)
    ensures Valid(NegatedClipping(e))
    ensures Valid(HidePlanes(e))
  {
    ClippingObjKeepsShapes(e, centers);
    IdsOfSameShapes(ClippingObj(e, centers).state.group, e.group);
    IdsOfSameShapes(ClippingObj(e, centers).state.grabbed, e.grabbed);
    IdsOfSameShapes(NegatedClipping(e).group, e.group);
    IdsOfSameShapes(HidePlanes(e).group, e.group);
  }
}

=== FILE: geometry.dfy ===
/**
 Vectors and planes with the semantics of the rendering library's `Vector3`
 and `Plane`, over the reals. A plane is the set of points `x` with
 `normal . x + constant == 0`; its signed distance is positive on the side
 the normal points to, which is the half-space a clipping plane keeps.
 */
module Geometry {

  datatype Vec3 = Vec3(x: real, y: real, z: real)

  const Origin := Vec3(0.0, 0.0, 0.0)

  function Add(a: Vec3, b: Vec3): Vec3 {
    Vec3(a.x + b.x, a.y + b.y, a.z + b.z)
  }

  function Sub(a: Vec3, b: Vec3): Vec3 {
    Vec3(a.x - b.x, a.y - b.y, a.z - b.z)
  }

  function Scale(a: Vec3, k: real): Vec3 {
    Vec3(k * a.x, k * a.y, k * a.z)
  }

  function Dot(a: Vec3, b: Vec3): real {
    a.x * b.x + a.y * b.y + a.z * b.z
  }

  datatype Plane = Plane(normal: Vec3, constant: real)

  /** `Plane.distanceToPoint`: the signed distance, scaled by the normal's length. */
  function DistanceToPoint(p: Plane, x: Vec3): real {
    Dot(p.normal, x) + p.constant
  }

  /** `Plane.negate`: the same plane keeping the opposite half-space. */
  function Negate(p: Plane): Plane {
    Plane(Scale(p.normal, -1.0), -p.constant)
  }

  /** Negation flips the sign of every signed distance. */
  lemma NegateFlipsSide(p: Plane, x: Vec3)
    ensures DistanceToPoint(Negate(p), x) == -DistanceToPoint(p, x)
  {
  }

  lemma NegateInvolution(p: Plane)
    ensures Negate(Negate(p)) == p
  {
  }

  /** `Plane.setFromNormalAndCoplanarPoint`: the plane with normal `n` through `q`. */
  function FromNormalAndCoplanarPoint(n: Vec3, q: Vec3): (r: Plane)
    ensures r.normal == n
  {
    Plane(n, -Dot(n, q))
  }

  /** The signed distance to the constructed plane is measured from `q` along `n`; in particular `q` is on it. */
  lemma CoplanarPointOnPlane(n: Vec3, q: Vec3, x: Vec3)
    ensures DistanceToPoint(FromNormalAndCoplanarPoint(n, q), x) == Dot(n, Sub(x, q))
    ensures DistanceToPoint(FromNormalAndCoplanarPoint(n, q), q) == 0.0
  {
  }

  /** Left-to-right sum, in the order of `Array.reduce`. */
  function Sum(cs: seq<Vec3>): Vec3 {
    if |cs| == 0 then Origin else Add(Sum(cs[..|cs| - 1]), cs[|cs| - 1])
  }

  /** Per-coordinate arithmetic mean; `clippingObj` divides 0 by 0 for no points. */
  function Barycenter(cs: seq<Vec3>): (b: Vec3)
    requires |cs| > 0
    ensures Scale(b, |cs| as real) == Sum(cs)
  {
    var s := Sum(cs);
    var n := |cs| as real;
    Vec3(s.x / n, s.y / n, s.z / n)
  }

  /** Sum of the signed distances of the points `cs` to `p`. */
  function SumDistances(p: Plane, cs: seq<Vec3>): real {
    if |cs| == 0 then 0.0 else SumDistances(p, cs[..|cs| - 1]) + DistanceToPoint(p, cs[|cs| - 1])
  }

  lemma {:induction false} SumOfCopies(cs: seq<Vec3>, c: Vec3)
    requires forall i :: 0 <= i < |cs| ==> cs[i] == c
    ensures Sum(cs) == Scale(c, |cs| as real)
  {
    if |cs| > 0 {
      SumOfCopies(cs[..|cs| - 1], c);
    }
  }

  /** When every point is the same point (as when every center is the loaded mesh's center), the barycenter is that point. */
  lemma BarycenterOfCopies(cs: seq<Vec3>, c: Vec3)
    requires |cs| > 0
    requires forall i :: 0 <= i < |cs| ==> cs[i] == c
    ensures Barycenter(cs) == c
  {
    SumOfCopies(cs, c);
    var n := |cs| as real;
    CancelFactor(c.x, n);
    CancelFactor(c.y, n);
    CancelFactor(c.z, n);
  }

  lemma BarycenterOfOne(c: Vec3)
    ensures Barycenter([c]) == c
  {
    BarycenterOfCopies([c], c);
  }

  lemma {:induction false} SumDistancesLinear(p: Plane, cs: seq<Vec3>)
    ensures SumDistances(p, cs) == Dot(p.normal, Sum(cs)) + |cs| as real * p.constant
  {
    if |cs| > 0 {
      SumDistancesLinear(p, cs[..|cs| - 1]);
    }
  }

  lemma CancelFactor(y: real, n: real)
    requires n > 0.0
    ensures (n * y) / n == y
  {
  }

  lemma MeanOfAffine(mx: real, my: real, mz: real, sx: real, sy: real, sz: real, c: real, n: real)
    requires n > 0.0
    ensures mx * (sx / n) + my * (sy / n) + mz * (sz / n) + c == (mx * sx + my * sy + mz * sz + n * c) / n
  {
    var qx, qy, qz := sx / n, sy / n, sz / n;
    assert sx == n * qx && sy == n * qy && sz == n * qz;
    var y := mx * qx + my * qy + mz * qz + c;
    assert mx * sx + my * sy + mz * sz + n * c == n * y;
    CancelFactor(y, n);
  }

  /** The signed distance of the barycenter is the mean signed distance of the points. */
  lemma BarycenterDistanceIsMean(p: Plane, cs: seq<Vec3>)
    requires |cs| > 0
    ensures DistanceToPoint(p, Barycenter(cs)) == SumDistances(p, cs) / |cs| as real
  {
    SumDistancesLinear(p, cs);
    var s := Sum(cs);
    var m := p.normal;
    var n := |cs| as real;
    MeanOfAffine(m.x, m.y, m.z, s.x, s.y, s.z, p.constant, n);
    assert Barycenter(cs) == Vec3(s.x / n, s.y / n, s.z / n);
    assert SumDistances(p, cs) == m.x * s.x + m.y * s.y + m.z * s.z + n * p.constant;
  }

  /** The barycenter lies on the negative side of `p` exactly when the points do on average. */
  lemma BarycenterSideIsMeanSide(p: Plane, cs: seq<Vec3>)
    requires |cs| > 0
    ensures DistanceToPoint(p, Barycenter(cs)) < 0.0 <==> SumDistances(p, cs) < 0.0
  {
    BarycenterDistanceIsMean(p, cs);
    var n := |cs| as real;
    var t := SumDistances(p, cs);
    if t < 0.0 {
      assert t / n < 0.0;
    } else {
      assert t / n >= 0.0;
    }
  }
}

=== FILE: scene.dfy ===
/**
 The editor's scene state. The module-level variables of the viewer
 (`planes`, `clippingOn`, `joinMesh`, `objectSelected`, `intersected`) and the
 children of the editable group become fields of one immutable `Editor`
 value; every GUI or controller action is a function of an `Editor`. Some
 take more: `clippingObj` also takes the loaded mesh's center and returns a
 `Step`, the new state plus whether it threw; `onSelectStart` takes the hit
 list and `onSelectEnd` the released object's new pose.
 */
module Scene {
  import opened Geometry

  datatype Option<T> = None | Some(value: T)

  datatype Rgb = Rgb(r: real, g: real, b: real)

  /**
   What a material's `clippingPlanes` property holds: nothing (`null`, the
   material default), an array of its own, or the very array the module
   variable `planes` currently names. Objects holding `Registry` observe every
   in-place negation of the registry's planes.
   */
  datatype ClipList = Unset | Own(planes: seq<Plane>) | Registry

  /**
   A mesh of the editable group. `id` stands for the object's identity (the
   viewer compares and stores references); `facing` is the object's local +Z
   axis rotated by its quaternion, which the rendering library computes.
   */
  datatype Obj = Obj(
    id: nat,
    name: string,
    visible: bool,
    position: Vec3,
    facing: Vec3,
    geometry: nat,
    color: nat,
    clipping: ClipList,
    clipIntersection: bool,
    emissive: Rgb)

  /** The secondary controller's `userData.selected`. */
  datatype Selected = Undefined | SelObject(id: nat) | SelGroup

  /**
   `group` is the editable group's children in order; `grabbed` holds the
   objects the controller has re-parented to itself; `planes` is the clip
   registry; `intersected` the ids of the objects highlighted this frame.
   */
  datatype Editor = Editor(
    group: seq<Obj>,
    grabbed: seq<Obj>,
    planes: seq<Plane>,
    clippingOn: bool,
    joinMesh: bool,
    selected: Selected,
    objectSelected: Option<nat>,
    intersected: seq<nat>)

  /** Objects whose name starts with "plane" are plane objects for the registry and for hiding. */
  predicate IsPlaneObject(o: Obj) {
    "plane" <= o.name
  }

  /** Only objects named exactly "plane" are exempt from having clipping assigned. */
  predicate IsClippable(o: Obj) {
    o.name != "plane"
  }

  /** The planes a material with clipping list `c` is clipped by, given the current registry. */
  function Effective(c: ClipList, registry: seq<Plane>): seq<Plane> {
    match c
    case Unset => []
    case Own(ps) => ps
    case Registry => registry
  }

  /** The test `!clippingPlanes || clippingPlanes.length === 0`. */
  predicate IsClear(c: ClipList, registry: seq<Plane>) {
    c.Unset? || |Effective(c, registry)| == 0
  }

  function Ids(objs: seq<Obj>): (r: seq<nat>)
    ensures |r| == |objs|
    ensures forall i :: 0 <= i < |objs| ==> r[i] == objs[i].id
  {
    seq(|objs|, i requires 0 <= i < |objs| => objs[i].id)
  }

  lemma IdsAppend(a: seq<Obj>, b: seq<Obj>)
    ensures Ids(a + b) == Ids(a) + Ids(b)
  {
  }

  /** Taking the k-th object out of a list takes exactly its identity out of the list's identities. */
  lemma IdsRemoveAt(s: seq<Obj>, k: nat)
    requires k < |s|
    ensures multiset(Ids(s)) == multiset(Ids(s[..k] + s[k + 1..])) + multiset{s[k].id}
  {
    assert s == s[..k] + [s[k]] + s[k + 1..];
    IdsAppend(s[..k] + [s[k]], s[k + 1..]);
    IdsAppend(s[..k], [s[k]]);
    IdsAppend(s[..k], s[k + 1..]);
  }

  /** No identity occurs twice. */
  predicate Distinct(s: seq<nat>) {
    forall v | v in s :: multiset(s)[v] <= 1
  }

  /**
   The representation invariant: every object is in one place only, and a
   selected object is one the controller holds.
   */
  predicate Valid(e: Editor) {
    && Distinct(Ids(e.group) + Ids(e.grabbed))
    && (e.selected.SelObject? ==> e.selected.id in Ids(e.grabbed))
  }

  /** The fields no editor action changes. */
  predicate SameShape(a: Obj, b: Obj) {
    && a.id == b.id
    && a.name == b.name
    && a.position == b.position
    && a.facing == b.facing
    && a.geometry == b.geometry
    && a.color == b.color
  }

  /** Two object lists that differ at most in visibility, clipping and highlight. */
  predicate SameShapes(a: seq<Obj>, b: seq<Obj>) {
    |a| == |b| && forall k :: 0 <= k < |a| ==> SameShape(a[k], b[k])
  }

  /** Distinctness depends only on the multiset of identities. */
  lemma DistinctPermutation(a: seq<nat>, b: seq<nat>)
    requires Distinct(a)
    requires multiset(a) == multiset(b)
    ensures Distinct(b)
  {
    forall v | v in b
      ensures multiset(b)[v] <= 1
    {
      assert v in multiset(b);
      assert v in a;
    }
  }

  /** An identity distinct across two places is in at most one of them. */
  lemma DistinctAcross(a: seq<nat>, b: seq<nat>, v: nat)
    requires Distinct(a + b)
    requires v in a
    ensures v !in b
  {
    assert v in a + b;
    assert multiset(a + b) == multiset(a) + multiset(b);
    assert multiset(b)[v] == 0;
  }
}

=== FILE: selection.dfy ===
/**
 The secondary controller's pick-and-release state machine and the
 per-frame highlight reset. Raycasting is done by the rendering library:
 its result enters as the list of hit objects, nearest first.
 */
module Selection {
  import opened Geometry
  import opened Scene

  /** Set the blue component of the object's emissive color (the selection highlight). */
  function SetBlue(o: Obj, b: real): (r: Obj)
    ensures r.emissive.b == b
    ensures r == o.(emissive := Rgb(o.emissive.r, o.emissive.g, b))
  {
    o.(emissive := o.emissive.(b := b))
  }

  /** Clear the red component of the object's emissive color (the hover highlight). */
  function ClearRed(o: Obj): (r: Obj)
    ensures r.emissive.r == 0.0
    ensures r == o.(emissive := Rgb(0.0, o.emissive.g, o.emissive.b))
  {
    o.(emissive := o.emissive.(r := 0.0))
  }

  /**
   `onSelectStart`. `hits` are the group positions of the objects the ray
   hits, nearest first. Picking re-parents the object to the controller,
   which takes it out of the group's children.
   */
  function OnSelectStart(e: Editor, hits: seq<nat>): (r: Editor)
    requires |hits| > 0 ==> hits[0] < |e.group|
    ensures e.clippingOn || |hits| == 0 ==> r == e
    ensures !e.clippingOn && |hits| > 0 && e.joinMesh ==>
      && r.selected == SelGroup
      && |r.group| == |e.group|
      && (forall k :: 0 <= k < |e.group| ==> r.group[k] == SetBlue(e.group[k], 1.0))
      && r.(group := e.group, selected := e.selected) == e
    ensures !e.clippingOn && |hits| > 0 && !e.joinMesh ==>
      && r.group == e.group[..hits[0]] + e.group[hits[0] + 1..]
      && r.grabbed == e.grabbed + [SetBlue(e.group[hits[0]], 1.0)]
      && r.selected == SelObject(e.group[hits[0]].id)
      && e.group[hits[0]].id in Ids(r.grabbed)
      && r.objectSelected == Some(e.group[hits[0]].id)
      && r.(group := e.group, grabbed := e.grabbed, selected := e.selected, objectSelected := e.objectSelected) == e
  {
    if e.clippingOn || |hits| == 0 then e
    else if e.joinMesh then
      e.(group := seq(|e.group|, k requires 0 <= k < |e.group| => SetBlue(e.group[k], 1.0)),
         selected := SelGroup)
    else
      var h := hits[0];
      var o := e.group[h];
      var held := e.grabbed + [SetBlue(o, 1.0)];
      assert Ids(held)[|e.grabbed|] == o.id;
      e.(group := e.group[..h] + e.group[h + 1..],
         grabbed := held,
         selected := SelObject(o.id),
         objectSelected := Some(o.id))
  }

  /** The first position holding the object with identity `id`. */
  function IndexOf(objs: seq<Obj>, id: nat): (k: nat)
    requires id in Ids(objs)
    ensures k < |objs| && objs[k].id == id
    ensures forall j :: 0 <= j < k ==> objs[j].id != id
  {
    if objs[0].id == id then 0
    else
      assert Ids(objs) == [objs[0].id] + Ids(objs[1..]);
      1 + IndexOf(objs[1..], id)
  }

  /**
   Where `group.attach` puts a released object: its position and rotated +Z
   axis in the group's frame. The rendering library computes them from where
   the controller moved the object while it was held.
   */
  datatype Pose = Pose(position: Vec3, facing: Vec3)

  /** The released object: highlight off, placed at `pose`, otherwise the held object. */
  function Released(o: Obj, pose: Pose): (r: Obj)
    ensures r.id == o.id && r.emissive.b == 0.0
    ensures r.position == pose.position && r.facing == pose.facing
    ensures r == o.(emissive := r.emissive, position := r.position, facing := r.facing)
    ensures r.emissive.r == o.emissive.r && r.emissive.g == o.emissive.g
  {
    SetBlue(o, 0.0).(position := pose.position, facing := pose.facing)
  }

  /**
   `onSelectEnd`: a held object returns to the end of the group's children
   at `pose` with its selection highlight off; a held group turns every
   child's highlight off, the children keeping their poses in the group.
   The selection is undefined afterwards in every case.
   */
  function OnSelectEnd(e: Editor, pose: Pose): (r: Editor)
    requires e.selected.SelObject? ==> e.selected.id in Ids(e.grabbed)
    ensures r.selected == Undefined
    ensures e.selected.Undefined? ==> r == e
    ensures e.selected.SelGroup? ==>
      && |r.group| == |e.group|
      && (forall k :: 0 <= k < |e.group| ==> r.group[k] == SetBlue(e.group[k], 0.0))
      && r.(group := e.group, selected := e.selected) == e
    ensures e.selected.SelObject? ==>
      && |r.grabbed| == |e.grabbed| - 1
      && |r.group| == |e.group| + 1
      && r.group[..|e.group|] == e.group
      && r.group[|e.group|].id == e.selected.id
      && r.group[|e.group|].emissive.b == 0.0
      && r.group[|e.group|].position == pose.position && r.group[|e.group|].facing == pose.facing
      && r.(group := e.group, grabbed := e.grabbed, selected := e.selected) == e
    ensures e.selected.SelObject? ==>
      exists k ::
        && 0 <= k < |e.grabbed|
        && e.grabbed[k].id == e.selected.id
        && r.grabbed == e.grabbed[..k] + e.grabbed[k + 1..]
        && r.group == e.group + [Released(e.grabbed[k], pose)]
  {
    match e.selected
    case Undefined => e
    case SelGroup =>
      e.(group := seq(|e.group|, k requires 0 <= k < |e.group| => SetBlue(e.group[k], 0.0)),
         selected := Undefined)
    case SelObject(id) =>
      var k := IndexOf(e.grabbed, id);
      e.(grabbed := e.grabbed[..k] + e.grabbed[k + 1..],
         group := e.group + [Released(e.grabbed[k], pose)],
         selected := Undefined)
  }

  /** The objects after resetting the hover highlight of every object whose identity is in `ids`. */
  function ClearedRed(objs: seq<Obj>, ids: seq<nat>): (r: seq<Obj>)
    ensures |r| == |objs|
    ensures forall k :: 0 <= k < |objs| && objs[k].id in ids ==> r[k].emissive == Rgb(0.0, objs[k].emissive.g, objs[k].emissive.b)
    ensures forall k :: 0 <= k < |objs| ==> r[k] == objs[k].(emissive := r[k].emissive)
    ensures forall k :: 0 <= k < |objs| && objs[k].id !in ids ==> r[k] == objs[k]
  {
    seq(|objs|, k requires 0 <= k < |objs| => if objs[k].id in ids then ClearRed(objs[k]) else objs[k])
  }

  /** Resetting one more identity extends the reset list at its front. */
  lemma ClearedRedStep(objs: seq<Obj>, ids: seq<nat>, id: nat)
    ensures ClearedRed(ClearedRed(objs, ids), [id]) == ClearedRed(objs, [id] + ids)
  {
  }

  /** Resetting a highlight moves nothing: the identities stay where they were. */
  lemma ClearedRedKeepsIds(objs: seq<Obj>, ids: seq<nat>)
    ensures Ids(ClearedRed(objs, ids)) == Ids(objs)
  {
  }

  /**
   The per-frame reset all at once: every highlighted object, in the group
   or held by the controller, has its hover highlight cleared, and nothing is
   highlighted any more.
   */
  function Cleaned(e: Editor): (r: Editor)
    ensures r.intersected == []
    ensures |r.group| == |e.group| && |r.grabbed| == |e.grabbed|
    ensures forall k :: 0 <= k < |e.group| && e.group[k].id in e.intersected ==>
      r.group[k] == e.group[k].(emissive := Rgb(0.0, e.group[k].emissive.g, e.group[k].emissive.b))
    ensures forall k :: 0 <= k < |e.grabbed| && e.grabbed[k].id in e.intersected ==>
      r.grabbed[k] == e.grabbed[k].(emissive := Rgb(0.0, e.grabbed[k].emissive.g, e.grabbed[k].emissive.b))
    ensures forall k :: 0 <= k < |e.group| && e.group[k].id !in e.intersected ==> r.group[k] == e.group[k]
    ensures forall k :: 0 <= k < |e.grabbed| && e.grabbed[k].id !in e.intersected ==> r.grabbed[k] == e.grabbed[k]
    ensures Ids(r.group) == Ids(e.group) && Ids(r.grabbed) == Ids(e.grabbed)
    ensures Valid(e) ==> Valid(r)
  {
    ClearedRedKeepsIds(e.group, e.intersected);
    ClearedRedKeepsIds(e.grabbed, e.intersected);
    e.(intersected := [],
       group := ClearedRed(e.group, e.intersected),
       grabbed := ClearedRed(e.grabbed, e.intersected))
  }

  /**
   `cleanIntersected`: pop the highlighted objects one by one, last first,
   resetting each one's red emissive wherever it now is; the result is the
   all-at-once reset.
   */
  method CleanIntersected(e: Editor) returns (r: Editor)
    ensures r == Cleaned(e)
  {
    r := e;
    assert e.intersected[|e.intersected|..] == [];
    while |r.intersected| > 0
      invariant r.intersected == e.intersected[..|r.intersected|]
      invariant r.group == ClearedRed(e.group, e.intersected[|r.intersected|..])
      invariant r.grabbed == ClearedRed(e.grabbed, e.intersected[|r.intersected|..])
      invariant r.(group := e.group, grabbed := e.grabbed, intersected := e.intersected) == e
      decreases |r.intersected|
    {
      var n := |r.intersected| - 1;
      var id := r.intersected[n];
      assert e.intersected[n..] == [id] + e.intersected[n + 1..];
      ClearedRedStep(e.group, e.intersected[n + 1..], id);
      ClearedRedStep(e.grabbed, e.intersected[n + 1..], id);
      r := r.(intersected := r.intersected[..n],
              group := ClearedRed(r.group, [id]),
              grabbed := ClearedRed(r.grabbed, [id]));
    }
  }
}

=== FILE: selection_properties.dfy ===
/** Properties relating pick and release, and the representation invariant. */
module SelectionProperties {
  import opened Scene
  import opened Selection

  /** Picking moves one object from the group to the controller; no identity is lost or copied. */
  lemma SelectStartKeepsValid(e: Editor, hits: seq<nat>)
    requires Valid(e)
    requires |hits| > 0 ==> hits[0] < |e.group|
    ensures Valid(OnSelectStart(e, hits))
  {
    var s := OnSelectStart(e, hits);
    if !e.clippingOn && |hits| > 0 {
      if e.joinMesh {
        assert Ids(s.group) == Ids(e.group);
      } else {
        var h := hits[0];
        IdsRemoveAt(e.group, h);
        IdsAppend(e.grabbed, [SetBlue(e.group[h], 1.0)]);
        IdsAppend(e.group, e.grabbed);
        IdsAppend(s.group, s.grabbed);
        DistinctPermutation(Ids(e.group) + Ids(e.grabbed), Ids(s.group) + Ids(s.grabbed));
      }
    }
  }

  /** The identities a release moves: the held one goes from the controller to the group. */
  lemma ReleaseKeepsIds(e: Editor, pose: Pose)
    requires e.selected.SelObject? && e.selected.id in Ids(e.grabbed)
    ensures multiset(Ids(OnSelectEnd(e, pose).group) + Ids(OnSelectEnd(e, pose).grabbed)) == multiset(Ids(e.group) + Ids(e.grabbed))
  {
    var k := IndexOf(e.grabbed, e.selected.id);
    var o := e.grabbed[k];
    var g := e.group + [Released(o, pose)];
    var h := e.grabbed[..k] + e.grabbed[k + 1..];
    assert OnSelectEnd(e, pose).group == g && OnSelectEnd(e, pose).grabbed == h;
    IdsRemoveAt(e.grabbed, k);
    IdsAppend(e.group, [Released(o, pose)]);
    assert multiset(Ids(g) + Ids(h)) == multiset(Ids(e.group)) + multiset{o.id} + multiset(Ids(h));
  }

  /** Releasing moves the held object from the controller back to the group; no identity is lost or copied. */
  lemma SelectEndKeepsValid(e: Editor, pose: Pose)
    requires Valid(e)
    ensures Valid(OnSelectEnd(e, pose))
  {
    var t := OnSelectEnd(e, pose);
    if e.selected.SelGroup? {
      assert Ids(t.group) == Ids(e.group);
    } else if e.selected.SelObject? {
      ReleaseKeepsIds(e, pose);
      DistinctPermutation(Ids(e.group) + Ids(e.grabbed), Ids(t.group) + Ids(t.grabbed));
    }
  }

  /**
   Restore on release: picking the nearest object and releasing it puts it
   back, highlight off and placed where the controller left it, at the end of
   the group's children; the controller holds what it held before and
   `objectSelected` remembers the object.
   */
  lemma PickReleaseRoundTrip(e: Editor, hits: seq<nat>, pose: Pose)
    requires Valid(e)
    requires !e.clippingOn && !e.joinMesh
    requires |hits| > 0 && hits[0] < |e.group|
    ensures var r := OnSelectEnd(OnSelectStart(e, hits), pose);
      var h := hits[0];
      && r.group == e.group[..h] + e.group[h + 1..] + [Released(e.group[h], pose)]
      && r.grabbed == e.grabbed
      && r.selected == Undefined
      && r.objectSelected == Some(e.group[h].id)
    ensures pose == Pose(e.group[hits[0]].position, e.group[hits[0]].facing) ==>
      OnSelectEnd(OnSelectStart(e, hits), pose).group[|e.group| - 1] == SetBlue(e.group[hits[0]], 0.0)
  {
    var h := hits[0];
    var o := e.group[h];
    var s := OnSelectStart(e, hits);
    assert Ids(e.group)[h] == o.id;
    DistinctAcross(Ids(e.group), Ids(e.grabbed), o.id);
    assert forall j :: 0 <= j < |e.grabbed| ==> Ids(e.grabbed)[j] != o.id;
    var k := IndexOf(s.grabbed, o.id);
    assert k == |e.grabbed|;
    assert s.grabbed[..k] == e.grabbed;
  }

  /** Picking the whole group and releasing it leaves every child in place with its highlight off. */
  lemma PickReleaseGroupRoundTrip(e: Editor, hits: seq<nat>, pose: Pose)
    requires !e.clippingOn && e.joinMesh
    requires |hits| > 0 && hits[0] < |e.group|
    ensures var r := OnSelectEnd(OnSelectStart(e, hits), pose);
      && |r.group| == |e.group|
      && (forall k :: 0 <= k < |e.group| ==> r.group[k] == SetBlue(e.group[k], 0.0))
      && r.(group := e.group, selected := e.selected) == e
  {
  }

  /** A second reset in the same frame finds nothing highlighted and changes nothing. */
  lemma CleanedIdempotent(e: Editor)
    ensures Cleaned(Cleaned(e)) == Cleaned(e)
  {
    var c := Cleaned(e);
    assert ClearedRed(c.group, []) == c.group;
    assert ClearedRed(c.grabbed, []) == c.grabbed;
  }
}
